=== FILE: README.md ===
# Owl20 bridge logic in Dafny

Owl20 is a browser extension that relays Beyond20 dice rolls into the
iframes of an Owlbear Rodeo page. It also ships a small documentation site.
This project models three pieces of its decision logic as pure Dafny
functions and proves properties about them.

- **The content script's `Owl20Bridge`** (`bridge.dfy`). The bridge holds an
  iframe registry, a roll history bounded by `maxRolls`, the page's roll
  display (its children mirror the history) and a settings record.
  `addIframe`, the roll handler, `clearRolls`, settings loading and the
  runtime-message listener are transitions on an immutable `Bridge.State` value.
  What the bridge does to each iframe (direct insertion, `postMessage`, or
  nothing) comes back as a sequence of `Delivery` values. Whether an
  iframe's document can be reached is an input, `Access`, chosen per iframe
  at send time. It stands in for the cross-origin `try`/`catch`.
- **The background script's dispatcher** (`background.dfy`). The
  `owl20Settings` storage key is an abstract cell, `Option<SettingsPatch>`.
  The module covers the install-time default write, the `onMessage` action
  switch and the `tabs.onUpdated` injection test. The tabs that a URL query
  returns are an input. Messages sent to tabs are recorded in the outcome.
- **The documentation header's navigation** (`header.dfy`). It is a pure
  function from `(pathname, hash)` to the active button's name, plus the
  eight navigation links with their `href` and `active` class.

Supporting modules:

- `common.dfy` defines `Option`, duplicate-freedom and occurrence counts.
- `text.dfy` defines the JavaScript string operations used: `endsWith`,
  `indexOf`, `includes`, first-occurrence `replace`, and `split`/`join`/`pop`.
- `settings.dfy` defines the settings record and partial settings objects.
  It also defines object spread, proved equal to right-biased map union.
- `messages.dfy` defines the runtime request and response shapes.

Facts about the code that the model keeps:

- A theme is any string. The code never checks it against a fixed set.
- The cross-window message `type` is `OWL20_ROLL` or `OWL20_CLEAR`.
- Every discovered iframe is registered, whatever its URL, and a removed
  iframe is never dropped from the registry.
- JavaScript `||` treats `''` as false. So an empty `character` renders as
  `Unknown`, and an empty `html` renders as the placeholder.
- The popup fills `maxRolls` with `parseInt` (popup.js:39), which gives NaN
  for an empty or non-numeric field. What arrives depends on the browser.
  Where runtime messages are structured-cloned (Firefox), NaN survives. A
  comparison with NaN is false, so the history is never trimmed
  (`Bridge.NaNLimitNeverEvicts`). Where messages and `chrome.storage` values
  are serialised as JSON (Chrome, Edge), NaN arrives as `null`, and
  `length > null` is `length > 0`. That is `Limit(0)`: every roll is evicted
  as soon as it is appended, and the display stays empty
  (`Bridge.ZeroLimitEvictsEveryRoll`).

## Model

| member | source | states |
|---|---|---|
| `Text.EndsWithIsConcat` | docs/js/header.js:5 | `endsWith(suffix)` holds exactly when the string is some prefix followed by `suffix` |
| `Text.IndexOf` | background.js:67 | the result is an occurrence at or after the start index, with no earlier one; no result means no occurrence at or after the start |
| `Text.ContainsIffOccurs` | background.js:67 | `includes` holds exactly when the pattern occurs at some index |
| `Text.RemoveFirst` | docs/js/header.js:18 | `replace` with a string pattern cuts out only the first occurrence, and leaves a string with no occurrence unchanged |
| `Text.Split` | docs/js/header.js:18 | `split` on one character yields at least one piece, and no piece holds the separator |
| `Text.JoinSplit` | docs/js/header.js:18 | joining the pieces of a split with the separator gives back the original string |
| `Text.LastSegment` | docs/js/header.js:18 | the result has no separator, ends the string, and is the whole string or follows a separator |
| `Text.LastSegmentUnique` | docs/js/header.js:18 | only one string can be the last segment |
| `Text.LastSegmentAfterSeparator` | docs/js/header.js:18 | text before any separator does not affect the last segment |
| `Text.LastSegmentWithoutSeparator` | docs/js/header.js:18 | a string with no separator is its own last segment |
| `Text.PopOfSplit` | docs/js/header.js:18 | `split('/').pop()` equals the last segment computed from the right |
| `Settings.MergeIsRightBiasedUnion` | content.js:28 | `{...settings, ...stored}` is right-biased union of the objects: present keys overwrite, all other keys keep their value |
| `Settings.OverlayIsRightBiasedUnion` | content.js:62 | spreading one partial settings object over another is right-biased union too |
| `Settings.MergeTwice` | content.js:62 | two successive settings updates equal one update with the overlaid objects |
| `Settings.MergeEmptyAndIdempotent` | content.js:62 | merging `{}` changes nothing; repeating an update changes nothing more |
| `Settings.DefaultsAgree` | background.js:11-16 | the stored defaults hold the same four keys and values as the content script's initial settings |
| `Bridge.Render` | content.js:416-425 | the name is the character, or `Unknown` when absent or empty; the body is the roll html, or the placeholder; neither is empty |
| `Bridge.FanOut` | content.js:432-447 | one delivery per registered iframe, in registry order; `postMessage` exactly for cross-origin iframes, carrying the roll; direct insertion exactly for reachable iframes with a container |
| `Bridge.FanOutExactlyOnce` | content.js:433 | with a duplicate-free registry every registered iframe is served exactly once, and nothing else is served |
| `Bridge.FanOutAsWritten` | content.js:432-447 | the loop as written completes exactly when no iframe is detached; otherwise it stops at the first detached iframe, having served only those before it |
| `Bridge.DetachedFrameStopsFanOut` | content.js:440-446 | a detached iframe first in the registry keeps a live same-origin iframe behind it from getting the roll |
| `Bridge.Initial` | content.js:5-13 | a new bridge has no iframes, no history and the default settings, and satisfies the state invariant |
| `Bridge.LoadSettings` | content.js:25-32 | stored settings are spread over the current ones; with nothing stored the bridge is unchanged; the state invariant is kept |
| `Bridge.AddIframe` | content.js:97-105 | an iframe already registered leaves the bridge unchanged; a new one is appended at the end; nothing else changes, the element counter included; duplicate-freedom and the state invariant are kept |
| `Bridge.AddAll` | content.js:91-95 | adding discovered iframes one by one keeps the old registry as a prefix, holds exactly the old and new iframes, keeps history, settings, display and element counter, and keeps duplicate-freedom and the state invariant |
| `Bridge.RemoveElement` | content.js:396-398 | removing an element leaves every other child and no child with that identity |
| `Bridge.RemoveAbsentElement` | content.js:396-398 | removing an element that is not a child changes nothing |
| `Bridge.HandleRoll` | content.js:374-410 | the roll handler with the corrected fan-out. Disabled: nothing changes and nothing is sent. Enabled: the roll is appended; when the history then exceeds `maxRolls`, exactly the oldest entry is dropped; the new roll is last unless it was itself dropped; the registry and settings are untouched; the display is shown; every iframe gets the roll, and every posted message is an `OWL20_ROLL` carrying it |
| `Bridge.HandleRollAsWritten` | content.js:374-410 | the roll handler as written changes history and display exactly as the corrected one; its deliveries are the as-written loop's, and equal the corrected ones when no iframe is detached |
| `Bridge.Append` | content.js:383-391 | the new entry goes at the end of the history, and the display is shown; the invariant is kept |
| `Bridge.EvictOldest` | content.js:394-399 | `shift` removes exactly the first entry; in a valid bridge the display loses exactly its first child; the invariant is kept |
| `Bridge.RemoveOldestChild` | content.js:395-397 | in a valid bridge the oldest entry's element is the display's first child and its only child with that identity |
| `Bridge.HistoryStaysBounded` | content.js:394-399 | a history within `maxRolls` stays within it; in general a roll never takes it above the larger of its old length and `maxRolls` |
| `Bridge.NaNLimitNeverEvicts` | content.js:394 | with `maxRolls` NaN every enabled roll lengthens the history by one |
| `Bridge.ZeroLimitEvictsEveryRoll` | content.js:394-399 | with `maxRolls` 0 (a NaN serialised to `null`) every enabled roll is evicted at once: the history never grows, and an empty history and a valid bridge's display stay empty |
| `Bridge.HandleRollValid` | content.js:383-399 | a roll keeps the display mirroring the history; a surviving new roll's element is the display's last child |
| `Bridge.ClearRolls` | content.js:488-513 | the corrected clear: history emptied; display emptied and hidden; registry and settings untouched; every iframe cleared or sent a message tagged `OWL20_CLEAR`; the invariant is kept |
| `Bridge.ClearRollsAsWritten` | content.js:488-513 | as written, clearing empties and hides the display and equals the corrected clear when no iframe is detached; otherwise the history survives, the iframes before the first detached one are cleared or sent `OWL20_CLEAR`, and the rest are not |
| `Bridge.PartialClearExample` | content.js:494-509 | with a cross-origin iframe ahead of a detached one, the clear as written posts `OWL20_CLEAR` to the first only; the corrected clear serves both |
| `Bridge.DetachedFrameKeepsHistory` | content.js:503-512 | a single detached iframe leaves a one-roll history in place after a clear |
| `Bridge.OnPageEvent` | content.js:36-54 | both roll events hand a present `detail[0]` to the roll handler; any other event or a missing payload changes nothing; the state invariant is kept |
| `Bridge.HandleMessage` | content.js:60-69 | the listener with the corrected clear: `updateSettings` merges and answers success; `clearRolls` clears and answers success; other actions change nothing and get no answer; the invariant is kept |
| `Bridge.HandleMessageAsWritten` | content.js:60-69 | the listener as written equals the corrected one for every action but `clearRolls`, and for that too when no iframe is detached; a `clearRolls` does what the as-written clear does, so with a detached iframe the display is emptied and hidden, only the iframes before the first detached one are served, the history is kept and no answer is sent |
| `Bridge.DetachedFrameLosesClearAnswer` | content.js:64-66 | a single detached iframe: `clearRolls` as written gets no answer and keeps the roll, where the corrected listener answers success |
| `Background.Install` | background.js:5-20 | defaults are written only into an empty cell; a stored value is never overwritten; afterwards the cell is filled |
| `Background.InstallIdempotent` | background.js:9-18 | a second install changes nothing |
| `Background.Broadcast` | background.js:52-56 | one send per matching tab, in the query's order, each carrying the message |
| `Background.BroadcastExactlyOnce` | background.js:52-56 | with distinct tabs, each matching tab is sent the message exactly once and no other tab is sent it |
| `Background.HandleRequest` | background.js:23-63 | `getSettings` answers the stored object or `{}` and writes nothing. `updateSettings` stores the object wholesale, relays it to every tab and succeeds. `clearRolls` relays a clear to every tab and succeeds. Any other action answers `Unknown action` and touches nothing |
| `Background.OnlyUpdateWrites` | background.js:34 | only `updateSettings` changes storage, and it stores the sent object itself, not a merge |
| `Background.UpdateThenGet` | background.js:28-34 | after `updateSettings` with an object, `getSettings` answers exactly that object |
| `Background.ClearRollsAlwaysSucceeds` | background.js:50-58 | `clearRolls` succeeds whatever the tabs, including when there are none |
| `Background.InstallThenLoad` | background.js:9-18 | a fresh install followed by a content-script load yields the content script's defaults |
| `Background.UpdateReachesContent` | background.js:36-44 | each relayed update, handled by a tab's bridge, spreads the written object over that bridge's settings; a later load spreads it over the defaults |
| `Background.ShouldInject` | background.js:66-76 | injection is requested exactly when the status is `complete` and the URL is present and contains `owlbear.rodeo` |
| `Background.ShouldInjectExamples` | background.js:67 | a finished Owlbear Rodeo page is injected; a loading page, a blank page and a tab without a URL are not |
| `Header.IndexPageBySuffix` | docs/js/header.js:5 | a path is the index page exactly when it ends with `index.html` or `/`; the `=== '/'` test adds nothing |
| `Header.DropFirst` | docs/js/header.js:10 | `substring(1)` drops the first character and maps `''` to `''` |
| `Header.ActiveButton` | docs/js/header.js:3-24 | never empty. On the index page it is `home` or a section, and a section exactly when the hash names one. Off the index page it has no `/`, and unless it is `home` it is the page name and not `index` |
| `Header.ActiveButtonFromSplit` | docs/js/header.js:18-23 | off the index page the active button is the last piece of `split('/')` with its first `.html` removed, with `index` and `''` mapped to `home` |
| `Header.ActiveButtonExamples` | docs/js/header.js:9-15 | `/` with `#dm` gives `dm`; an unknown hash or no hash gives `home` |
| `Header.OffIndexExample` | docs/js/header.js:18-23 | `/faq.html` gives `faq` whatever the hash |
| `Header.SectionHref` | docs/js/header.js:56-59 | section links are `#name` on the index page and `/#name` elsewhere |
| `Header.NavBar` | docs/js/header.js:53-62 | eight buttons in order. Each is active exactly when its name is the active name. Section buttons use the section link. The others link to `/` or `name.html` |
| `Header.NavBarActive` | docs/js/header.js:54-61 | at most one button is active, and one is exactly when the active name is a button name |
| `Header.LoadHeader` | docs/js/header.js:3-62 | at most one navigation button is active, and on the index page exactly one is |

## Left out

- DOM rendering and styling are left out: style injection, `innerHTML` templates, `escapeHtml`, and the per-iframe display set-up of `injectIntoIframe`. Whether an iframe has the `owl20-rolls` container is the `SameOrigin(hasContainer)` input instead.
- The `MutationObserver` wiring and the initial `querySelectorAll` scan are left out. They appear only as `Bridge.AddAll`, a sequence of `addIframe` calls.
- `chrome.storage`, `chrome.tabs`, `chrome.runtime` and `chrome.scripting` are I/O. Storage is an abstract cell. A tab query's result is an input. Sends are recorded outputs. Asynchronous callbacks are taken in program order.
- Timers are left out (the ten-second fade and the popup status timer), and so are timestamps (`Date.now`, `toLocaleTimeString`).
- Header.LoadHeader: the 100 ms re-activation timer (docs/js/header.js:146-152, 157-163) is left out; the model is the header before it fires. On the index page with a section hash the timer re-activates the button `ActiveButton` already chose. Elsewhere with a section hash it clears every `active` class and adds none, because section buttons there link to `/#name`, not `#name`.
- `updateRollDisplay`'s regular-expression rewrite of theme classes is left out. It acts only on DOM class names.
- `popup.js`, `docs/script.js`, `www/script.js` and `docs/js/starfield.js` are left out. They are form glue and presentation code with no logic of their own.
- The header's click handlers and HTML insertion are left out, except for the link targets and `active` classes in `Header.NavBar`.
- Logging (`console.log`) is left out.
- Background.HandleRequest: a `settings` field that is not an object (missing, `null`, a number) is not modelled. A request always carries a partial settings object, with `{}` standing for a missing field.
- Settings.Merge: only the four known keys are modelled. Extra keys in a stored or sent object are dropped, although object spread would carry them along.
- Bridge.HandleRoll: `maxRolls` is an integer or NaN. Other JavaScript values (fractions, strings) are not modelled.

## Findings

| source | as written | input that shows it | evidently intended | confidence | as-written member | corrected member |
|---|---|---|---|---|---|---|
| content.js:432-447 | For an iframe removed from the page, `contentWindow` is null, so the `try` block throws. The `catch` block then calls `iframe.contentWindow.postMessage`, which throws again and leaves the `forEach`. Removed iframes are never dropped from the registry. | registry `[1, 2]`; iframe 1 removed from the page; iframe 2 same-origin with a roll container | every iframe still on the page gets the roll; a removed iframe is skipped | medium, not executed | `Bridge.FanOutAsWritten`, `Bridge.DetachedFrameStopsFanOut`, `Bridge.HandleRollAsWritten` | `Bridge.FanOut` (`Bridge.FanOutExactlyOnce`), `Bridge.HandleRoll` |
| content.js:488-513 | The same second throw in the clearing loop leaves `clearRolls` before `this.rollHistory = []`. The display is emptied but the history is kept. The exception also skips `sendResponse({ success: true })` in the listener: the content script's reply to the background's `chrome.tabs.sendMessage` is never sent, and nothing reads it. The popup still reports success, because the background answers it at background.js:57 whatever the tabs do. | registry `[7]`, iframe 7 removed from the page, a history of one roll | clearing always empties the history and answers success | medium, not executed | `Bridge.ClearRollsAsWritten`, `Bridge.DetachedFrameKeepsHistory`, `Bridge.HandleMessageAsWritten`, `Bridge.DetachedFrameLosesClearAnswer` | `Bridge.ClearRolls`, `Bridge.HandleMessage` |

=== FILE: background.dfy ===
/** The background script: the install-time default write, the runtime
    message dispatcher over the `owl20Settings` storage cell, and the
    content-script injection test on tab updates. Storage is an abstract
    cell; the tabs a URL query would return are an input; messages sent to
    tabs are recorded in the outcome. */
module Background {
  import opened Common
  import opened Settings
  import opened Messages
  import Text
  import Bridge

  /** A browser tab's id. */
  type TabId = int

  /** The value under the `owl20Settings` storage key, if any. */
  type Storage = Option<SettingsPatch>

  /** A message relayed to a tab. */
  datatype TabMessage = UpdateSettingsMessage(settings: SettingsPatch) | ClearRollsMessage
  {
    /** The request object the tab's content script receives. */
    function AsRequest(): Request
    {
      match this
      case UpdateSettingsMessage(s) => Request("updateSettings", s)
      case ClearRollsMessage => Request("clearRolls", EmptyPatch)
    }
  }

  /** `onInstalled` (background.js:5-20): defaults are written only into an
      empty cell; an existing value is never overwritten. */
  function Install(cell: Storage): (r: Storage)
    ensures r.Some?
    ensures cell.Some? ==> r == cell
    ensures cell.None? ==> r == Some(StoredDefaults())
  {
    if cell.None? then Some(StoredDefaults()) else cell
  }

  /** Installing is idempotent: a second install finds the cell filled. */
  lemma InstallIdempotent(cell: Storage)
    ensures Install(Install(cell)) == Install(cell)
  {
  }

  /** What handling one request did: the new cell, the response and the
      messages sent to tabs, in order. */
  datatype Outcome = Outcome(storage: Storage, response: Response, sent: seq<(TabId, TabMessage)>)

  /** Every tab in `tabs`, in order, paired with `m`. */
  function Broadcast(tabs: seq<TabId>, m: TabMessage): (sent: seq<(TabId, TabMessage)>)
    ensures |sent| == |tabs|
    ensures forall i :: 0 <= i < |tabs| ==> sent[i] == (tabs[i], m)
  {
    seq(|tabs|, i requires 0 <= i < |tabs| => (tabs[i], m))
  }

  /** With the distinct tabs a query returns, each matching tab is sent the
      message exactly once and no other tab is sent anything. */
  lemma BroadcastExactlyOnce(tabs: seq<TabId>, m: TabMessage, t: TabId)
    requires NoDup(tabs)
    ensures Count(Broadcast(tabs, m), (t, m)) == (if t in tabs then 1 else 0)
    ensures forall k :: 0 <= k < |tabs| ==> Broadcast(tabs, m)[k].1 == m
  {
    var sent := Broadcast(tabs, m);
    assert NoDup(sent) by {
      forall i, j | 0 <= i < j < |sent| ensures sent[i] != sent[j] {
        assert sent[i].0 == tabs[i] && sent[j].0 == tabs[j];
      }
    }
    CountNoDup(sent, (t, m));
    assert (t, m) in sent <==> t in tabs by {
      if t in tabs {
        var k :| 0 <= k < |tabs| && tabs[k] == t;
        assert sent[k] == (t, m);
      }
    }
  }

  /** `onMessage` (background.js:23-63). `tabs` is what the query for the
      Owlbear Rodeo URL pattern returns. `getSettings` reads the cell and
      answers `{}` when it is empty; `updateSettings` replaces the stored
      object wholesale, relays it to every tab and succeeds; `clearRolls`
      relays a clear to every tab and succeeds; any other action is an
      error and touches nothing. */
  function HandleRequest(cell: Storage, req: Request, tabs: seq<TabId>): (r: Outcome)
    ensures req.action == "getSettings" ==>
      && r.storage == cell && r.sent == []
      && (cell.Some? ==> r.response == SettingsReply(cell.value))
      && (cell.None? ==> r.response == SettingsReply(EmptyPatch))
    ensures req.action == "updateSettings" ==>
      && r.storage == Some(req.settings)
      && r.response == Succeeded
      && |r.sent| == |tabs|
      && forall i :: 0 <= i < |tabs| ==> r.sent[i] == (tabs[i], UpdateSettingsMessage(req.settings))
    ensures req.action == "clearRolls" ==>
      && r.storage == cell
      && r.response == Succeeded
      && |r.sent| == |tabs|
      && forall i :: 0 <= i < |tabs| ==> r.sent[i] == (tabs[i], ClearRollsMessage)
    ensures req.action !in {"getSettings", "updateSettings", "clearRolls"} ==>
      r == Outcome(cell, Failed("Unknown action"), [])
  {
    match req.action
    case "getSettings" => Outcome(cell, SettingsReply(cell.GetOr(EmptyPatch)), [])
    case "updateSettings" =>
      Outcome(Some(req.settings), Succeeded, Broadcast(tabs, UpdateSettingsMessage(req.settings)))
    case "clearRolls" => Outcome(cell, Succeeded, Broadcast(tabs, ClearRollsMessage))
    case _ => Outcome(cell, Failed("Unknown action"), [])
  }

  /** Only `updateSettings` writes storage, and what it writes is the sent
      object itself, not a merge with what was there. */
  lemma OnlyUpdateWrites(cell: Storage, req: Request, tabs: seq<TabId>)
    ensures HandleRequest(cell, req, tabs).storage != cell ==>
      req.action == "updateSettings" && HandleRequest(cell, req, tabs).storage == Some(req.settings)
  {
  }

  /** Write-then-read: after `updateSettings` with `s`, `getSettings`
      answers exactly `s`, whatever was stored before. */
  lemma UpdateThenGet(cell: Storage, s: SettingsPatch, tabs: seq<TabId>, tabs': seq<TabId>)
    ensures var written := HandleRequest(cell, Request("updateSettings", s), tabs).storage;
      HandleRequest(written, Request("getSettings", EmptyPatch), tabs').response == SettingsReply(s)
  {
  }

  /** `clearRolls` succeeds however many tabs match, none included. */
  lemma ClearRollsAlwaysSucceeds(cell: Storage, req: Request, tabs: seq<TabId>)
    requires req.action == "clearRolls"
    ensures HandleRequest(cell, req, tabs).response == Succeeded
    ensures HandleRequest(cell, req, []).response == Succeeded && HandleRequest(cell, req, []).sent == []
  {
  }

  /** A fresh install followed by a content script load gives the content
      script its own defaults, so the two default records agree. */
  lemma InstallThenLoad()
    ensures Bridge.LoadSettings(Bridge.Initial(), Install(None)).settings == ContentDefaults()
  {
    DefaultsAgree(ContentDefaults());
  }

  /** An update reaches every content script: each relayed message, handled
      by a tab's bridge, merges the written object into its settings, and a
      bridge loaded afterwards sees the written keys over its defaults. */
  lemma UpdateReachesContent(cell: Storage, s: SettingsPatch, tabs: seq<TabId>,
                             b: Bridge.State, access: Bridge.FrameId -> Bridge.Access)
    ensures var out := HandleRequest(cell, Request("updateSettings", s), tabs);
      && (forall i :: 0 <= i < |out.sent| ==>
            Bridge.HandleMessage(b, out.sent[i].1.AsRequest(), access).step.bridge.settings
              == Merge(b.settings, s))
      && Bridge.LoadSettings(Bridge.Initial(), out.storage).settings == Merge(ContentDefaults(), s)
  {
  }

  /** `tabs.onUpdated` (background.js:66-76): injection is requested exactly
      when loading is complete and the tab URL contains `owlbear.rodeo`. */
  function ShouldInject(status: Option<string>, url: Option<string>): (inject: bool)
    ensures inject <==>
      && status == Some("complete")
      && url.Some?
      && exists i: nat :: Text.OccursAt(url.value, "owlbear.rodeo", i)
  {
    Text.ContainsIffOccurs(url.GetOr(""), "owlbear.rodeo");
    status == Some("complete") && url.Some? && url.value != "" && Text.Contains(url.value, "owlbear.rodeo")
  }

  /** Concrete updates: a finished Owlbear Rodeo page is injected; a page
      still loading, a blank page and a tab without a URL are not. */
  lemma ShouldInjectExamples()
    ensures ShouldInject(Some("complete"), Some("https://www.owlbear.rodeo/room/abc"))
    ensures !ShouldInject(Some("loading"), Some("https://www.owlbear.rodeo/room/abc"))
    ensures !ShouldInject(Some("complete"), Some("about:blank"))
    ensures !ShouldInject(Some("complete"), None)
  {
    var host := "owlbear.rodeo";
    var u := "https://www." + host + "/room/abc";
    assert u == "https://www.owlbear.rodeo/room/abc";
    assert u[12..25] == host;
    assert Text.OccursAt(u, host, 12);
  }
}

=== FILE: bridge.dfy ===
/** The content script's `Owl20Bridge`: an iframe registry, a bounded roll
    history mirrored by the page's roll display, and the settings record.
    Each browser event becomes a pure transition; what the script does to
    other frames is returned as a sequence of deliveries. */
module Bridge {
  import opened Common
  import opened Settings
  import opened Messages

  /** Identity of an `<iframe>` element. */
  type FrameId = nat

  /** The Beyond20 roll payload; only the two fields the bridge reads. */
  datatype RollData = RollData(character: Option<string>, html: Option<string>)

  /** What a roll element shows: the character name and the roll body. */
  datatype RenderedRoll = RenderedRoll(name: string, content: string)

  const UnknownName := "Unknown"
  const Placeholder := "<div class=\"roll-placeholder\">Roll executed</div>"

  /** `v || fallback` for a string field: absent and `''` are both falsy. */
  function OrElse(v: Option<string>, fallback: string): string
  {
    if v.Some? && v.value != "" then v.value else fallback
  }

  /** The name and body shown for a roll (content.js:416, 425). */
  function Render(roll: RollData): (r: RenderedRoll)
    ensures r.name != "" && r.content != ""
    ensures roll.character.Some? && roll.character.value != "" ==> r.name == roll.character.value
    ensures roll.character.None? || roll.character.value == "" ==> r.name == UnknownName
    ensures roll.html.Some? && roll.html.value != "" ==> r.content == roll.html.value
    ensures roll.html.None? || roll.html.value == "" ==> r.content == Placeholder
  {
    RenderedRoll(OrElse(roll.character, UnknownName), OrElse(roll.html, Placeholder))
  }

  /** What touching an iframe's document turns out to do at send time:
      same-origin with or without the `owl20-rolls` container, no document,
      a cross-origin access error, or an element that has left the page
      (both `contentDocument` and `contentWindow` are null). */
  datatype Access = SameOrigin(hasContainer: bool) | NoDocument | CrossOrigin | Detached

  /** A message posted to a cross-origin frame. */
  datatype FrameMessage = RollMessage(data: RollData) | ClearMessage
  {
    /** The `type` field of the posted object. */
    function Tag(): string
    {
      match this
      case RollMessage(_) => "OWL20_ROLL"
      case ClearMessage => "OWL20_CLEAR"
    }
  }

  /** The effect of a fan-out on one iframe. */
  datatype Delivery =
    | Inserted(frame: FrameId, roll: RenderedRoll)
    | Emptied(frame: FrameId)
    | Posted(frame: FrameId, message: FrameMessage)
    | Untouched(frame: FrameId)

  /** One iframe's share of `sendToIframes` (content.js:433-446) or of the
      clearing loop (content.js:494-509): direct DOM work when the document
      is reachable, `postMessage` after a cross-origin error. A detached
      frame is skipped. */
  function Dispatch(f: FrameId, a: Access, msg: FrameMessage): Delivery
  {
    match a
    case SameOrigin(hasContainer) =>
      if !hasContainer then Untouched(f)
      else if msg.RollMessage? then Inserted(f, Render(msg.data))
      else Emptied(f)
    case NoDocument => Untouched(f)
    case CrossOrigin => Posted(f, msg)
    case Detached => Untouched(f)
  }

  /** The fan-out over the registry: one delivery per iframe, in registry
      order; direct insertion exactly for reachable frames with a
      container, `postMessage` exactly for cross-origin ones. */
  function FanOut(frames: seq<FrameId>, access: FrameId -> Access, msg: FrameMessage): (r: seq<Delivery>)
    ensures |r| == |frames|
    ensures forall i :: 0 <= i < |r| ==> r[i].frame == frames[i]
    ensures forall i :: 0 <= i < |r| ==> (r[i].Posted? <==> access(frames[i]).CrossOrigin?)
    ensures forall i :: 0 <= i < |r| && r[i].Posted? ==> r[i].message == msg
    ensures forall i :: 0 <= i < |r| ==>
      ((r[i].Inserted? || r[i].Emptied?) <==> access(frames[i]) == SameOrigin(true))
    ensures forall i :: 0 <= i < |r| && r[i].Inserted? ==> msg.RollMessage? && r[i].roll == Render(msg.data)
    ensures forall i :: 0 <= i < |r| && r[i].Emptied? ==> msg.ClearMessage?
  {
    if |frames| == 0 then []
    else [Dispatch(frames[0], access(frames[0]), msg)] + FanOut(frames[1..], access, msg)
  }

  /** The frames a sequence of deliveries went to, in order. */
  function Targets(ds: seq<Delivery>): (fs: seq<FrameId>)
    ensures |fs| == |ds|
    ensures forall i :: 0 <= i < |ds| ==> fs[i] == ds[i].frame
  {
    seq(|ds|, i requires 0 <= i < |ds| => ds[i].frame)
  }

  /** With a duplicate-free registry every registered iframe is served
      exactly once and nothing else is served. */
  lemma FanOutExactlyOnce(frames: seq<FrameId>, access: FrameId -> Access, msg: FrameMessage, f: FrameId)
    requires NoDup(frames)
    ensures Count(Targets(FanOut(frames, access, msg)), f) == (if f in frames then 1 else 0)
  {
    assert Targets(FanOut(frames, access, msg)) == frames;
    CountNoDup(frames, f);
  }

  // ---------------------------------------------------------------------
  // The loop as written: a detached iframe throws inside the catch block.

  /** Deliveries made, and whether the loop ran to the end. */
  datatype Partial = Partial(deliveries: seq<Delivery>, completed: bool)

  /** `this.iframes.forEach(...)` exactly as written: for a detached iframe
      `iframe.contentWindow.document` throws, and the handler's own
      `iframe.contentWindow.postMessage` throws again, so the exception
      leaves the loop and the remaining iframes are never reached. */
  function FanOutAsWritten(frames: seq<FrameId>, access: FrameId -> Access, msg: FrameMessage): (r: Partial)
    ensures r.completed <==> forall i :: 0 <= i < |frames| ==> !access(frames[i]).Detached?
    ensures r.completed ==> r.deliveries == FanOut(frames, access, msg)
    ensures !r.completed ==>
      && |r.deliveries| < |frames|
      && access(frames[|r.deliveries|]).Detached?
      && (forall i :: 0 <= i < |r.deliveries| ==> !access(frames[i]).Detached?)
      && r.deliveries == FanOut(frames[..|r.deliveries|], access, msg)
  {
    if |frames| == 0 then Partial([], true)
    else if access(frames[0]).Detached? then Partial([], false)
    else
      var rest := FanOutAsWritten(frames[1..], access, msg);
      assert forall i :: 1 <= i < |frames| ==> frames[i] == frames[1..][i - 1];
      assert rest.completed ==>
        FanOut(frames, access, msg) == [Dispatch(frames[0], access(frames[0]), msg)] + FanOut(frames[1..], access, msg);
      assert !rest.completed ==> frames[..1 + |rest.deliveries|][1..] == frames[1..][..|rest.deliveries|];
      Partial([Dispatch(frames[0], access(frames[0]), msg)] + rest.deliveries, rest.completed)
  }

  /** A detached iframe at the head of the registry starves a live,
      same-origin iframe behind it, which the corrected fan-out serves. */
  lemma DetachedFrameStopsFanOut()
    ensures var access := (f: FrameId) => if f == 1 then Detached else SameOrigin(true);
      var roll := RollData(Some("Aria"), None);
      && FanOutAsWritten([1, 2], access, RollMessage(roll)) == Partial([], false)
      && FanOut([1, 2], access, RollMessage(roll))
         == [Untouched(1), Inserted(2, RenderedRoll("Aria", Placeholder))]
  {
  }

  // ---------------------------------------------------------------------
  // The bridge's state.

  /** A roll element on the page's main display; `element` is its identity. */
  datatype DisplayItem = DisplayItem(element: nat, roll: RenderedRoll)

  /** The page's `owl20-main-rolls` element: its children and whether it is
      shown (`display: block`) or hidden (`display: none`). */
  datatype Display = Display(children: seq<DisplayItem>, visible: bool)

  /** A history record: the payload and the element made for it. */
  datatype HistoryEntry = HistoryEntry(data: RollData, element: nat)

  /** The bridge's fields. `nextElement` stands for the identity of the next element
      `document.createElement` will return. */
  datatype State = State(
    iframes: seq<FrameId>,
    history: seq<HistoryEntry>,
    settings: Settings,
    display: Display,
    nextElement: nat)

  /** The result of a transition: the new bridge and what it did to iframes. */
  datatype Step = Step(bridge: State, deliveries: seq<Delivery>)

  /** The state invariant: no iframe is registered twice, and the display's
      children are exactly the history's elements, oldest first, with
      distinct identities already handed out. */
  ghost predicate Valid(b: State)
  {
    && NoDup(b.iframes)
    && |b.display.children| == |b.history|
    && (forall i :: 0 <= i < |b.history| ==> b.display.children[i].element == b.history[i].element)
    && (forall i :: 0 <= i < |b.history| ==> b.history[i].element < b.nextElement)
    && (forall i, j :: 0 <= i < j < |b.history| ==> b.history[i].element < b.history[j].element)
  }

  /** The bridge as constructed (content.js:5-13, 245-267): nothing
      registered, no history, default settings, an empty hidden display. */
  function Initial(): (b: State)
    ensures Valid(b)
    ensures b.settings == ContentDefaults() && b.history == [] && b.iframes == []
  {
    State([], [], ContentDefaults(), Display([], false), 0)
  }

  /** `loadSettings` (content.js:25-32): stored settings are merged over the
      current ones; with nothing stored the bridge is unchanged. */
  function LoadSettings(b: State, stored: Option<SettingsPatch>): (r: State)
    ensures r.iframes == b.iframes && r.history == b.history && r.display == b.display
    ensures r.nextElement == b.nextElement
    ensures stored.None? ==> r == b
    ensures stored.Some? ==> AsObject(r.settings) == AsObject(b.settings) + PatchObject(stored.value)
    ensures Valid(b) ==> Valid(r)
  {
    match stored
    case None => b
    case Some(p) =>
      MergeIsRightBiasedUnion(b.settings, p);
      b.(settings := Merge(b.settings, p))
  }

  /** `addIframe` (content.js:97-105). */
  function AddIframe(b: State, f: FrameId): (r: State)
    ensures f in r.iframes
    ensures f in b.iframes ==> r == b
    ensures f !in b.iframes ==> r.iframes == b.iframes + [f]
    ensures r.history == b.history && r.settings == b.settings && r.display == b.display
    ensures r.nextElement == b.nextElement
    ensures NoDup(b.iframes) ==> NoDup(r.iframes)
    ensures Valid(b) ==> Valid(r)
  {
    if f in b.iframes then b else b.(iframes := b.iframes + [f])
  }

  /** The initial scan and the mutation observer: `addIframe` for each
      discovered iframe in turn (content.js:72-95). The registry keeps its
      old entries as a prefix, ends up holding exactly the old and the
      discovered frames, and stays duplicate-free. */
  function AddAll(b: State, fs: seq<FrameId>): (r: State)
    ensures |b.iframes| <= |r.iframes| && r.iframes[..|b.iframes|] == b.iframes
    ensures forall f :: f in r.iframes <==> f in b.iframes || f in fs
    ensures NoDup(b.iframes) ==> NoDup(r.iframes)
    ensures r.history == b.history && r.settings == b.settings && r.display == b.display
    ensures r.nextElement == b.nextElement
    ensures Valid(b) ==> Valid(r)
    decreases |fs|
  {
    if |fs| == 0 then b
    else
      var r := AddAll(AddIframe(b, fs[0]), fs[1..]);
      assert forall f :: f in fs <==> f == fs[0] || f in fs[1..];
      r
  }

  /** `parentNode.removeChild(element)`: drop the child with that identity. */
  function RemoveElement(children: seq<DisplayItem>, element: nat): (r: seq<DisplayItem>)
    ensures forall k :: 0 <= k < |r| ==> r[k].element != element
    ensures forall item :: item in r <==> item in children && item.element != element
  {
    if |children| == 0 then []
    else if children[0].element == element then RemoveElement(children[1..], element)
    else [children[0]] + RemoveElement(children[1..], element)
  }

  /** Removing an identity no child carries changes nothing. */
  lemma {:induction false} RemoveAbsentElement(children: seq<DisplayItem>, element: nat)
    requires forall k :: 0 <= k < |children| ==> children[k].element != element
    ensures RemoveElement(children, element) == children
  {
    if |children| > 0 {
      RemoveAbsentElement(children[1..], element);
    }
  }

  /** `handleBeyond20Roll` (content.js:374-410). Disabled, it changes
      nothing and sends nothing. Enabled, the roll is appended to history
      and display, the oldest entry (only it) is evicted when the history
      then exceeds `maxRolls`, the display is shown, and every iframe is
      sent the roll. The new roll is the last history entry unless it was
      itself evicted, which happens only to an empty history with
      `maxRolls` below one. */
  function HandleRoll(b: State, roll: RollData, access: FrameId -> Access): (r: Step)
    ensures !b.settings.enabled ==> r == Step(b, [])
    ensures b.settings.enabled ==>
      && r.bridge.display.visible
      && r.bridge.iframes == b.iframes
      && r.bridge.settings == b.settings
      && r.deliveries == FanOut(b.iframes, access, RollMessage(roll))
    ensures forall i :: 0 <= i < |r.deliveries| && r.deliveries[i].Posted? ==>
      r.deliveries[i].message.Tag() == "OWL20_ROLL" && r.deliveries[i].message.data == roll
    ensures b.settings.enabled ==>
      var grown := b.history + [HistoryEntry(roll, b.nextElement)];
      && (!Exceeds(|grown|, b.settings.maxRolls) ==> r.bridge.history == grown)
      && (Exceeds(|grown|, b.settings.maxRolls) ==> grown == [grown[0]] + r.bridge.history)
    ensures b.settings.enabled && |r.bridge.history| > 0 ==>
      r.bridge.history[|r.bridge.history| - 1] == HistoryEntry(roll, b.nextElement)
    ensures b.settings.enabled && |r.bridge.history| == 0 ==>
      b.history == [] && Exceeds(1, b.settings.maxRolls)
  {
    if !b.settings.enabled then Step(b, [])
    else
      var grown := Append(b, roll);
      var bridge :=
        if Exceeds(|grown.history|, b.settings.maxRolls) then EvictOldest(grown) else grown;
      Step(bridge, FanOut(b.iframes, access, RollMessage(roll)))
  }

  /** The roll appended to history and display, with the display shown. */
  function Append(b: State, roll: RollData): (r: State)
    ensures r.history == b.history + [HistoryEntry(roll, b.nextElement)]
    ensures r.iframes == b.iframes && r.settings == b.settings && r.display.visible
    ensures Valid(b) ==> Valid(r)
  {
    var shown := b.display.children + [DisplayItem(b.nextElement, Render(roll))];
    var r := b.(history := b.history + [HistoryEntry(roll, b.nextElement)],
                display := Display(shown, true),
                nextElement := b.nextElement + 1);
    assert Valid(b) ==> forall i :: 0 <= i < |r.history| ==> r.display.children[i].element == r.history[i].element;
    r
  }

  /** `rollHistory.shift()` and removal of the shifted entry's element. */
  function EvictOldest(b: State): (r: State)
    requires |b.history| > 0
    ensures b.history == [b.history[0]] + r.history
    ensures r.iframes == b.iframes && r.settings == b.settings
    ensures r.display.visible == b.display.visible
    ensures Valid(b) ==> Valid(r) && r.display.children == b.display.children[1..]
  {
    var r := b.(history := b.history[1..],
                display := b.display.(children := RemoveElement(b.display.children, b.history[0].element)));
    RemoveOldestChild(b);
    r
  }

  /** In a valid bridge the oldest entry's element is the first child and
      no other child carries its identity. */
  lemma RemoveOldestChild(b: State)
    requires |b.history| > 0
    ensures Valid(b) ==> RemoveElement(b.display.children, b.history[0].element) == b.display.children[1..]
  {
    if Valid(b) {
      var children := b.display.children;
      var first := b.history[0].element;
      assert children == [children[0]] + children[1..];
      assert forall k :: 0 <= k < |children[1..]| ==> children[1..][k].element == b.history[k + 1].element;
      RemoveAbsentElement(children[1..], first);
    }
  }

  /** The history bound: a roll never takes the history above `maxRolls`
      if it was within it, and in general never above the larger of its
      old length and `maxRolls`. */
  lemma HistoryStaysBounded(b: State, roll: RollData, access: FrameId -> Access, m: int)
    requires b.settings.maxRolls == Limit(m)
    ensures |HandleRoll(b, roll, access).bridge.history| <= if |b.history| > m then |b.history| else m
    ensures |b.history| <= m ==> |HandleRoll(b, roll, access).bridge.history| <= m
  {
  }

  /** With `maxRolls` NaN nothing is ever evicted: every enabled roll
      lengthens the history by one. */
  lemma NaNLimitNeverEvicts(b: State, roll: RollData, access: FrameId -> Access)
    requires b.settings.enabled && b.settings.maxRolls == NotANumber
    ensures |HandleRoll(b, roll, access).bridge.history| == |b.history| + 1
  {
  }

  /** A limit of zero, which is what a NaN `maxRolls` becomes where runtime
      messages and storage are serialised as JSON (NaN turns into `null`,
      and `length > null` compares with 0): every enabled roll is evicted
      as soon as it is appended, so the history never grows and an empty
      one stays empty. */
  lemma ZeroLimitEvictsEveryRoll(b: State, roll: RollData, access: FrameId -> Access)
    requires b.settings.enabled && b.settings.maxRolls == Limit(0)
    ensures |HandleRoll(b, roll, access).bridge.history| == |b.history|
    ensures b.history == [] ==> HandleRoll(b, roll, access).bridge.history == []
    ensures Valid(b) && b.history == [] ==> HandleRoll(b, roll, access).bridge.display.children == []
  {
    if Valid(b) {
      HandleRollValid(b, roll, access);
    }
  }

  /** A roll keeps the bridge valid, and the new roll's element is the
      display's last child whenever it survived eviction. */
  lemma HandleRollValid(b: State, roll: RollData, access: FrameId -> Access)
    requires Valid(b)
    ensures Valid(HandleRoll(b, roll, access).bridge)
    ensures b.settings.enabled && |HandleRoll(b, roll, access).bridge.history| > 0 ==>
      var d := HandleRoll(b, roll, access).bridge.display.children;
      |d| > 0 && d[|d| - 1] == DisplayItem(b.nextElement, Render(roll))
  {
  }

  /** `handleBeyond20Roll` exactly as written: history and display change
      as in `HandleRoll`, because they are updated before `sendToIframes`;
      the fan-out then stops at the first detached iframe. */
  function HandleRollAsWritten(b: State, roll: RollData, access: FrameId -> Access): (r: Step)
    ensures r.bridge == HandleRoll(b, roll, access).bridge
    ensures !b.settings.enabled ==> r.deliveries == []
    ensures b.settings.enabled ==>
      r.deliveries == FanOutAsWritten(b.iframes, access, RollMessage(roll)).deliveries
    ensures (forall i :: 0 <= i < |b.iframes| ==> !access(b.iframes[i]).Detached?) ==>
      r == HandleRoll(b, roll, access)
  {
    if !b.settings.enabled then Step(b, [])
    else
      Step(HandleRoll(b, roll, access).bridge,
           FanOutAsWritten(b.iframes, access, RollMessage(roll)).deliveries)
  }

  /** Clearing (content.js:488-513): the display is emptied and hidden,
      every iframe is cleared or sent `OWL20_CLEAR`, and the history is
      emptied; the registry and settings are untouched. */
  function ClearRolls(b: State, access: FrameId -> Access): (r: Step)
    ensures r.bridge.history == [] && r.bridge.display == Display([], false)
    ensures r.bridge.iframes == b.iframes && r.bridge.settings == b.settings
    ensures Valid(b) ==> Valid(r.bridge)
    ensures r.deliveries == FanOut(b.iframes, access, ClearMessage)
    ensures forall i :: 0 <= i < |r.deliveries| && r.deliveries[i].Posted? ==>
      r.deliveries[i].message.Tag() == "OWL20_CLEAR"
  {
    Step(b.(history := [], display := Display([], false)), FanOut(b.iframes, access, ClearMessage))
  }

  /** `clearRolls` exactly as written: when the clearing loop throws on a
      detached iframe, `this.rollHistory = []` is never reached. */
  function ClearRollsAsWritten(b: State, access: FrameId -> Access): (r: Step)
    ensures r.bridge.display == Display([], false)
    ensures r.bridge.iframes == b.iframes && r.bridge.settings == b.settings
    ensures r.deliveries == FanOutAsWritten(b.iframes, access, ClearMessage).deliveries
    ensures (forall i :: 0 <= i < |b.iframes| ==> !access(b.iframes[i]).Detached?) ==>
      r == ClearRolls(b, access)
    ensures (exists i :: 0 <= i < |b.iframes| && access(b.iframes[i]).Detached?) ==>
      r.bridge.history == b.history
  {
    var run := FanOutAsWritten(b.iframes, access, ClearMessage);
    var cleared := b.(display := Display([], false));
    if run.completed then Step(cleared.(history := []), run.deliveries)
    else Step(cleared, run.deliveries)
  }

  /** A cross-origin iframe ahead of a detached one is sent the clear; the
      detached one ends the loop, and the history survives. */
  lemma PartialClearExample()
    ensures var b := State([1, 2], [], ContentDefaults(), Display([], true), 0);
      var access := (f: FrameId) => if f == 1 then CrossOrigin else Detached;
      && ClearRollsAsWritten(b, access).deliveries == [Posted(1, ClearMessage)]
      && |ClearRolls(b, access).deliveries| == 2
  {
  }

  /** One detached iframe keeps the roll history alive through a clear. */
  lemma DetachedFrameKeepsHistory()
    ensures var b := State([7], [HistoryEntry(RollData(None, None), 0)], ContentDefaults(),
                            Display([DisplayItem(0, Render(RollData(None, None)))], true), 1);
      var access := (f: FrameId) => Detached;
      && |ClearRollsAsWritten(b, access).bridge.history| == 1
      && ClearRolls(b, access).bridge.history == []
  {
  }

  /** The document listeners (content.js:36-54): both roll events hand
      `detail[0]` to the roll handler when it is present; any other event,
      including `Beyond20_Loaded`, changes nothing. */
  function OnPageEvent(b: State, name: string, detail: seq<Option<RollData>>, access: FrameId -> Access): (r: Step)
    ensures (name == "Beyond20_RenderedRoll" || name == "Beyond20_Roll") && |detail| > 0 && detail[0].Some? ==>
      r == HandleRoll(b, detail[0].value, access)
    ensures !(name == "Beyond20_RenderedRoll" || name == "Beyond20_Roll") || |detail| == 0 || detail[0].None? ==>
      r == Step(b, [])
    ensures Valid(b) ==> Valid(r.bridge)
  {
    if (name == "Beyond20_RenderedRoll" || name == "Beyond20_Roll") && |detail| > 0 && detail[0].Some? then
      var r := HandleRoll(b, detail[0].value, access);
      assert Valid(b) ==> Valid(r.bridge) by {
        if Valid(b) { HandleRollValid(b, detail[0].value, access); }
      }
      r
    else
      Step(b, [])
  }

  /** The content script's reply to a runtime message. */
  datatype Reply = Reply(step: Step, response: Option<Response>)

  /** The runtime-message listener (content.js:60-69): `updateSettings`
      merges the sent settings, `clearRolls` clears; both answer
      `success: true`. Any other action is ignored without an answer. */
  function HandleMessage(b: State, req: Request, access: FrameId -> Access): (r: Reply)
    ensures req.action == "updateSettings" ==>
      && r.response == Some(Succeeded)
      && r.step.deliveries == []
      && r.step.bridge == b.(settings := Merge(b.settings, req.settings))
    ensures req.action == "clearRolls" ==>
      r.response == Some(Succeeded) && r.step == ClearRolls(b, access)
    ensures req.action != "updateSettings" && req.action != "clearRolls" ==>
      r.response.None? && r.step == Step(b, [])
    ensures Valid(b) ==> Valid(r.step.bridge)
  {
    if req.action == "updateSettings" then
      Reply(Step(b.(settings := Merge(b.settings, req.settings)), []), Some(Succeeded))
    else if req.action == "clearRolls" then
      Reply(ClearRolls(b, access), Some(Succeeded))
    else
      Reply(Step(b, []), None)
  }

  /** The listener exactly as written: when `clearRolls` throws on a
      detached iframe, `sendResponse({ success: true })` is never reached
      and the history is kept. */
  function HandleMessageAsWritten(b: State, req: Request, access: FrameId -> Access): (r: Reply)
    ensures req.action != "clearRolls" ==> r == HandleMessage(b, req, access)
    ensures req.action == "clearRolls" ==> r.step == ClearRollsAsWritten(b, access)
    ensures (forall i :: 0 <= i < |b.iframes| ==> !access(b.iframes[i]).Detached?) ==>
      r == HandleMessage(b, req, access)
    ensures req.action == "clearRolls" && (exists i :: 0 <= i < |b.iframes| && access(b.iframes[i]).Detached?) ==>
      r.response.None? && r.step.bridge.history == b.history
  {
    if req.action == "clearRolls" then
      var run := FanOutAsWritten(b.iframes, access, ClearMessage);
      Reply(ClearRollsAsWritten(b, access), if run.completed then Some(Succeeded) else None)
    else
      HandleMessage(b, req, access)
  }

  /** A `clearRolls` message to a bridge whose only iframe has left the
      page gets no answer, and the roll stays in the history. */
  lemma DetachedFrameLosesClearAnswer()
    ensures var b := State([7], [HistoryEntry(RollData(None, None), 0)], ContentDefaults(),
                            Display([DisplayItem(0, Render(RollData(None, None)))], true), 1);
      var access := (f: FrameId) => Detached;
      var req := Request("clearRolls", EmptyPatch);
      && HandleMessageAsWritten(b, req, access).response.None?
      && |HandleMessageAsWritten(b, req, access).step.bridge.history| == 1
      && HandleMessage(b, req, access).response == Some(Succeeded)
  {
  }
}

=== FILE: common.dfy ===
/** Small shared vocabulary: an optional value (JavaScript's `undefined`
    field) and duplicate-freedom of a sequence. */
module Common {

  /** An object field that is either set or `undefined`. */
  datatype Option<+T> = None | Some(value: T)
  {
    /** The value when the field is present, otherwise the fallback (as a
        key missing from a spread object leaves the earlier value). */
    function GetOr(fallback: T): T
    {
      if Some? then value else fallback
    }
  }

  /** No element occurs twice. */
  ghost predicate NoDup<T>(s: seq<T>)
  {
    forall i, j :: 0 <= i < j < |s| ==> s[i] != s[j]
  }

  /** Number of occurrences of `x` in `s`. */
  function Count<T(==)>(s: seq<T>, x: T): nat
  {
    if |s| == 0 then 0
    else (if s[0] == x then 1 else 0) + Count(s[1..], x)
  }

  /** In a duplicate-free sequence every member occurs exactly once and
      every non-member not at all. */
  lemma {:induction false} CountNoDup<T>(s: seq<T>, x: T)
    requires NoDup(s)
    ensures Count(s, x) == (if x in s then 1 else 0)
  {
    if |s| > 0 {
      assert NoDup(s[1..]) by {
        forall i, j | 0 <= i < j < |s[1..]| ensures s[1..][i] != s[1..][j] {
          assert s[1..][i] == s[i + 1] && s[1..][j] == s[j + 1];
        }
      }
      CountNoDup(s[1..], x);
      if s[0] == x {
        assert x !in s[1..] by {
          forall k | 0 <= k < |s[1..]| ensures s[1..][k] != x {
            assert s[1..][k] == s[k + 1];
          }
        }
      } else {
        assert (x in s) == (x in s[1..]) by {
          if x in s {
            var k :| 0 <= k < |s| && s[k] == x;
            assert s[1..][k - 1] == x;
          }
        }
      }
    }
  }
}

=== FILE: header.dfy ===
/** The documentation site's header (docs/js/header.js): which navigation
    button is active for a `(pathname, hash)` pair, and the eight buttons'
    links and `active` classes. */
module Header {
  import opened Text

  /** The in-page sections of the index page. */
  const Sections: set<string> := {"player", "dm", "troubleshooting"}

  /** The navigation buttons' names, in display order. */
  const ButtonNames: seq<string> :=
    ["home", "about", "player", "dm", "faq", "troubleshooting", "privacy", "sitemap"]

  /** Whether `pathname` is treated as the index page (header.js:5). */
  predicate IsIndexPage(path: string)
  {
    EndsWith(path, "index.html") || path == "/" || EndsWith(path, "/")
  }

  /** The `=== '/'` test is subsumed by the trailing-slash test: the index
      page is recognised by its suffix alone. */
  lemma IndexPageBySuffix(path: string)
    ensures IsIndexPage(path) <==> EndsWith(path, "index.html") || EndsWith(path, "/")
  {
  }

  /** `hash.substring(1)`: everything after the first character, and `''`
      for an empty hash. */
  function DropFirst(s: string): (r: string)
    ensures |s| == 0 ==> r == ""
    ensures |s| > 0 ==> s == [s[0]] + r
  {
    if |s| == 0 then "" else s[1..]
  }

  /** `pathname.split('/').pop().replace('.html', '')` (header.js:18). */
  function PageName(path: string): string
  {
    RemoveFirst(LastSegment(path, '/'), ".html")
  }

  /** The active button (header.js:3-24). On the index page it is the hash
      section when that is one of the three sections and `home` otherwise;
      elsewhere it is the page name, with `index` and `''` read as `home`.
      It is never empty, and off the index page it never holds a `/`. */
  function ActiveButton(path: string, hash: string): (r: string)
    ensures r != ""
    ensures IsIndexPage(path) ==> r == "home" || r in Sections
    ensures IsIndexPage(path) ==> (r in Sections <==> DropFirst(hash) in Sections)
    ensures IsIndexPage(path) && DropFirst(hash) in Sections ==> r == DropFirst(hash)
    ensures !IsIndexPage(path) ==> '/' !in r
    ensures !IsIndexPage(path) && r != "home" ==> r == PageName(path) && r != "index"
  {
    if IsIndexPage(path) then
      var section := DropFirst(hash);
      if section == "player" || section == "dm" || section == "troubleshooting" then section else "home"
    else
      var name := PageName(path);
      if name == "index" || name == "" then "home" else name
  }

  /** Off the index page the active button is what the browser computes
      with `split('/')` and `pop()`: the last `/`-separated piece with its
      first `.html` removed, `index` and `''` becoming `home`. */
  lemma ActiveButtonFromSplit(path: string, hash: string)
    requires !IsIndexPage(path)
    ensures var parts := Split(path, '/');
      var name := RemoveFirst(parts[|parts| - 1], ".html");
      ActiveButton(path, hash) == if name == "index" || name == "" then "home" else name
  {
    PopOfSplit(path, '/');
  }

  /** A navigation link as rendered. */
  datatype NavButton = NavButton(name: string, caption: string, href: string, active: bool)

  /** `#name` on the index page, `/#name` elsewhere (header.js:56-59). */
  function SectionHref(onIndex: bool, name: string): (href: string)
    ensures EndsWith(href, name)
    ensures onIndex ==> href == ['#'] + name
    ensures !onIndex ==> href == ['/', '#'] + name
  {
    (if onIndex then "#" else "/#") + name
  }

  /** The navigation bar (header.js:53-62). */
  function NavBar(onIndex: bool, activeButton: string): (bar: seq<NavButton>)
    ensures |bar| == |ButtonNames|
    ensures forall i :: 0 <= i < |bar| ==> bar[i].name == ButtonNames[i]
    ensures forall i :: 0 <= i < |bar| ==> (bar[i].active <==> bar[i].name == activeButton)
    ensures forall i :: 0 <= i < |bar| && bar[i].name in Sections ==>
      bar[i].href == SectionHref(onIndex, bar[i].name)
    ensures forall i :: 0 <= i < |bar| && bar[i].name !in Sections ==>
      bar[i].href == if bar[i].name == "home" then "/" else bar[i].name + ".html"
  {
    [ NavButton("home", "Home", "/", activeButton == "home"),
      NavButton("about", "About", "about.html", activeButton == "about"),
      NavButton("player", "Player Setup", SectionHref(onIndex, "player"), activeButton == "player"),
      NavButton("dm", "DM Setup", SectionHref(onIndex, "dm"), activeButton == "dm"),
      NavButton("faq", "FAQ", "faq.html", activeButton == "faq"),
      NavButton("troubleshooting", "Troubleshooting", SectionHref(onIndex, "troubleshooting"),
                activeButton == "troubleshooting"),
      NavButton("privacy", "Privacy", "privacy.html", activeButton == "privacy"),
      NavButton("sitemap", "Sitemap", "sitemap.html", activeButton == "sitemap") ]
  }

  /** At most one button of a bar is active, because the eight names are
      distinct; one is active exactly when the active name is a button's. */
  lemma NavBarActive(onIndex: bool, activeButton: string)
    ensures var bar := NavBar(onIndex, activeButton);
      && (forall i, j :: 0 <= i < |bar| && 0 <= j < |bar| && bar[i].active && bar[j].active ==> i == j)
      && ((exists i :: 0 <= i < |bar| && bar[i].active) <==> activeButton in ButtonNames)
  {
    var bar := NavBar(onIndex, activeButton);
    if activeButton in ButtonNames {
      var k :| 0 <= k < |ButtonNames| && ButtonNames[k] == activeButton;
      assert bar[k].active;
    }
  }

  /** The header for a location: the bar for the computed active button.
      At most one button is active; on the index page exactly one is. */
  function LoadHeader(path: string, hash: string): (bar: seq<NavButton>)
    ensures forall i, j :: 0 <= i < |bar| && 0 <= j < |bar| && bar[i].active && bar[j].active ==> i == j
    ensures IsIndexPage(path) ==> exists i :: 0 <= i < |bar| && bar[i].active
    ensures (exists i :: 0 <= i < |bar| && bar[i].active) <==> ActiveButton(path, hash) in ButtonNames
  {
    NavBarActive(IsIndexPage(path), ActiveButton(path, hash));
    NavBar(IsIndexPage(path), ActiveButton(path, hash))
  }

  /** Concrete locations. */
  lemma ActiveButtonExamples()
    ensures ActiveButton("/", "#dm") == "dm"
    ensures ActiveButton("/index.html", "#credits") == "home"
    ensures ActiveButton("/", "") == "home"
  {
  }

  /** A page off the index: its file name without `.html`, whatever the
      hash says. */
  lemma OffIndexExample()
    ensures ActiveButton("/faq.html", "#dm") == "faq"
  {
    var path, file := "/faq.html", "faq.html";
    assert path == "/" + file;
    assert !IsIndexPage(path);
    assert IsLastSegment(path, '/', file);
    LastSegmentUnique(path, '/', LastSegment(path, '/'), file);
    assert file == "faq" + ".html";
    assert OccursAt(file, ".html", 3);
    forall j: nat | j < 3 ensures !OccursAt(file, ".html", j) {
      assert file[j] != '.';
      if j + 5 <= |file| {
        assert file[j..j + 5][0] == file[j];
      }
    }
    assert FirstOccurrence(file, ".html", 3);
    assert PageName(path) == file[..3] + file[8..];
  }
}

=== FILE: messages.dfy ===
/** The extension's runtime messages: `{ action, settings }` requests and the
    responses handed to `sendResponse`. */
module Messages {
  import opened Settings

  /** A request object. A request without a `settings` field carries `{}`. */
  datatype Request = Request(action: string, settings: SettingsPatch)

  /** `{ settings }`, `{ success: true }` or `{ error }`. */
  datatype Response = SettingsReply(settings: SettingsPatch) | Succeeded | Failed(error: string)
}

=== FILE: settings.dfy ===
/** The Owl20 settings object, the partial objects that arrive in storage and
    in messages, and the object spread `{ ...settings, ...patch }` that
    combines them. */
module Settings {
  import opened Common

  /** A `maxRolls` value. It is a JavaScript number; the popup produces it
      with `parseInt`, which yields NaN on an empty or non-numeric field.
      NaN survives only where runtime messages are structured-cloned; where
      they are serialised as JSON it arrives as `null`, which compares as
      `Limit(0)`. */
  datatype RollLimit = Limit(n: int) | NotANumber

  /** `length > maxRolls` on JavaScript numbers: every comparison with NaN
      is false. */
  predicate Exceeds(length: nat, limit: RollLimit)
  {
    match limit
    case Limit(n) => length > n
    case NotANumber => false
  }

  /** The content script's complete settings record. */
  datatype Settings = Settings(enabled: bool, theme: string, position: string, maxRolls: RollLimit)

  /** A settings object as stored or sent: any subset of the four keys. */
  datatype SettingsPatch = SettingsPatch(
    enabled: Option<bool>,
    theme: Option<string>,
    position: Option<string>,
    maxRolls: Option<RollLimit>)

  /** `{}`. */
  const EmptyPatch := SettingsPatch(None, None, None, None)

  /** The settings the content script starts with (content.js:8-13). */
  function ContentDefaults(): Settings
  {
    Settings(true, "dark", "bottom-right", Limit(50))
  }

  /** The object the background script writes on install (background.js:11-16). */
  function StoredDefaults(): SettingsPatch
  {
    SettingsPatch(Some(true), Some("dark"), Some("bottom-right"), Some(Limit(50)))
  }

  /** `{ ...s, ...p }`: keys present in `p` win, the rest keep their value. */
  function Merge(s: Settings, p: SettingsPatch): Settings
  {
    Settings(
      p.enabled.GetOr(s.enabled),
      p.theme.GetOr(s.theme),
      p.position.GetOr(s.position),
      p.maxRolls.GetOr(s.maxRolls))
  }

  /** `{ ...p, ...q }` on two partial objects. */
  function Overlay(p: SettingsPatch, q: SettingsPatch): SettingsPatch
  {
    SettingsPatch(
      if q.enabled.Some? then q.enabled else p.enabled,
      if q.theme.Some? then q.theme else p.theme,
      if q.position.Some? then q.position else p.position,
      if q.maxRolls.Some? then q.maxRolls else p.maxRolls)
  }

  // An independent view of settings objects as JavaScript objects: finite
  // maps from property names to values. Dafny's map union `m + n` keeps the
  // right operand's value on shared keys, as object spread does.

  datatype Key = EnabledKey | ThemeKey | PositionKey | MaxRollsKey
  datatype Value = BoolValue(b: bool) | StringValue(s: string) | NumberValue(n: RollLimit)

  /** The object for a complete settings record. */
  function AsObject(s: Settings): (m: map<Key, Value>)
    ensures m.Keys == {EnabledKey, ThemeKey, PositionKey, MaxRollsKey}
  {
    map[EnabledKey := BoolValue(s.enabled), ThemeKey := StringValue(s.theme),
        PositionKey := StringValue(s.position), MaxRollsKey := NumberValue(s.maxRolls)]
  }

  /** The object for a partial record: only the present keys. */
  function PatchObject(p: SettingsPatch): (m: map<Key, Value>)
    ensures EnabledKey in m <==> p.enabled.Some?
    ensures ThemeKey in m <==> p.theme.Some?
    ensures PositionKey in m <==> p.position.Some?
    ensures MaxRollsKey in m <==> p.maxRolls.Some?
  {
    var m0: map<Key, Value> := map[];
    var m1 := if p.enabled.Some? then m0[EnabledKey := BoolValue(p.enabled.value)] else m0;
    var m2 := if p.theme.Some? then m1[ThemeKey := StringValue(p.theme.value)] else m1;
    var m3 := if p.position.Some? then m2[PositionKey := StringValue(p.position.value)] else m2;
    if p.maxRolls.Some? then m3[MaxRollsKey := NumberValue(p.maxRolls.value)] else m3
  }

  /** Merging is right-biased map union: every key of the patch overwrites,
      every other key keeps its prior value. */
  lemma MergeIsRightBiasedUnion(s: Settings, p: SettingsPatch)
    ensures AsObject(Merge(s, p)) == AsObject(s) + PatchObject(p)
  {
    var l := AsObject(Merge(s, p));
    var r := AsObject(s) + PatchObject(p);
    assert l.Keys == r.Keys;
    forall k | k in l ensures l[k] == r[k] {
      match k
      case EnabledKey =>
      case ThemeKey =>
      case PositionKey =>
      case MaxRollsKey =>
    }
  }

  /** Overlaying two patches is right-biased map union too. */
  lemma OverlayIsRightBiasedUnion(p: SettingsPatch, q: SettingsPatch)
    ensures PatchObject(Overlay(p, q)) == PatchObject(p) + PatchObject(q)
  {
    var l := PatchObject(Overlay(p, q));
    var r := PatchObject(p) + PatchObject(q);
    assert l.Keys == r.Keys by {
      forall k ensures k in l <==> k in r {
        match k
        case EnabledKey =>
        case ThemeKey =>
        case PositionKey =>
        case MaxRollsKey =>
      }
    }
    forall k | k in l ensures l[k] == r[k] {
      match k
      case EnabledKey =>
      case ThemeKey =>
      case PositionKey =>
      case MaxRollsKey =>
    }
  }

  /** Two successive merges are one merge of the overlaid patches. */
  lemma MergeTwice(s: Settings, p: SettingsPatch, q: SettingsPatch)
    ensures Merge(Merge(s, p), q) == Merge(s, Overlay(p, q))
  {
  }

  /** Merging `{}` changes nothing; merging the same patch twice is merging
      it once. */
  lemma MergeEmptyAndIdempotent(s: Settings, p: SettingsPatch)
    ensures Merge(s, EmptyPatch) == s
    ensures Merge(Merge(s, p), p) == Merge(s, p)
  {
  }

  /** The defaults the background script stores are exactly the content
      script's initial settings: merging them over anything yields those. */
  lemma DefaultsAgree(s: Settings)
    ensures Merge(s, StoredDefaults()) == ContentDefaults()
    ensures PatchObject(StoredDefaults()) == AsObject(ContentDefaults())
  {
  }
}

=== FILE: text.dfy ===
/** The handful of JavaScript string operations the navigation header uses:
    `endsWith`, `indexOf`/`includes`, `replace` with a string pattern
    (first occurrence only), and `split` on a one-character separator
    followed by `pop`. */
module Text {
  import opened Common

  /** `s.endsWith(suffix)`. */
  predicate EndsWith(s: string, suffix: string)
  {
    |suffix| <= |s| && s[|s| - |suffix|..] == suffix
  }

  /** A string ends with `suffix` exactly when it is something followed by
      `suffix`. */
  lemma EndsWithIsConcat(s: string, suffix: string)
    ensures EndsWith(s, suffix) <==> exists p: string :: s == p + suffix
  {
    if EndsWith(s, suffix) {
      assert s == s[..|s| - |suffix|] + suffix;
    }
    if exists p: string :: s == p + suffix {
      var p: string :| s == p + suffix;
      assert s[|s| - |suffix|..] == suffix;
    }
  }

  /** `pat` occurs in `s` starting at index `i`. */
  predicate OccursAt(s: string, pat: string, i: nat)
  {
    i + |pat| <= |s| && s[i..i + |pat|] == pat
  }

  /** `i` is the first index where `pat` occurs in `s`. */
  predicate FirstOccurrence(s: string, pat: string, i: nat)
  {
    OccursAt(s, pat, i) && forall j: nat :: j < i ==> !OccursAt(s, pat, j)
  }

  /** The first occurrence of `pat` at or after `from`. This is
      `s.indexOf(pat, from)` for `from <= |s|`; beyond the end JavaScript
      still finds an empty pattern at `|s|`, where this gives `None`. Only
      `from = 0` is used, by `includes`. */
  function IndexOf(s: string, pat: string, from: nat): (r: Option<nat>)
    ensures r.Some? ==> from <= r.value && OccursAt(s, pat, r.value)
    ensures r.Some? ==> forall j: nat :: from <= j < r.value ==> !OccursAt(s, pat, j)
    ensures r.None? ==> forall j: nat :: from <= j ==> !OccursAt(s, pat, j)
    decreases |s| - from
  {
    if from + |pat| > |s| then None
    else if s[from..from + |pat|] == pat then Some(from)
    else IndexOf(s, pat, from + 1)
  }

  /** `s.includes(pat)`. */
  predicate Contains(s: string, pat: string)
  {
    IndexOf(s, pat, 0).Some?
  }

  /** `includes` holds exactly when the pattern occurs somewhere. */
  lemma ContainsIffOccurs(s: string, pat: string)
    ensures Contains(s, pat) <==> exists i: nat :: OccursAt(s, pat, i)
  {
  }

  /** `s.replace(pat, '')` for a string pattern: only the first occurrence
      is removed. */
  function RemoveFirst(s: string, pat: string): (r: string)
    ensures (forall i: nat :: !OccursAt(s, pat, i)) ==> r == s
    ensures forall i: nat :: FirstOccurrence(s, pat, i) ==> r == s[..i] + s[i + |pat|..]
  {
    match IndexOf(s, pat, 0)
    case None => s
    case Some(i) =>
      assert forall k: nat :: FirstOccurrence(s, pat, k) ==> k == i;
      s[..i] + s[i + |pat|..]
  }

  /** `s.split(sep)` for a one-character separator: the maximal
      separator-free pieces, left to right. */
  function Split(s: string, sep: char): (parts: seq<string>)
    ensures |parts| >= 1
    ensures forall k :: 0 <= k < |parts| ==> sep !in parts[k]
    decreases |s|
  {
    match IndexOf(s, [sep], 0)
    case None =>
      assert sep !in s by {
        forall k | 0 <= k < |s| ensures s[k] != sep {
          assert !OccursAt(s, [sep], k);
          assert s[k..k + 1] == [s[k]];
        }
      }
      [s]
    case Some(i) =>
      assert sep !in s[..i] by {
        forall k | 0 <= k < i ensures s[k] != sep {
          assert !OccursAt(s, [sep], k);
          assert s[k..k + 1] == [s[k]];
        }
      }
      [s[..i]] + Split(s[i + 1..], sep)
  }

  /** `parts.join(sep)`. */
  function Join(parts: seq<string>, sep: char): string
    requires |parts| >= 1
  {
    if |parts| == 1 then parts[0] else parts[0] + [sep] + Join(parts[1..], sep)
  }

  /** Splitting and joining again gives back the original string. */
  lemma {:induction false} JoinSplit(s: string, sep: char)
    ensures Join(Split(s, sep), sep) == s
    decreases |s|
  {
    match IndexOf(s, [sep], 0)
    case None =>
    case Some(i) =>
      assert s[i..i + 1] == [sep];
      JoinSplit(s[i + 1..], sep);
      var rest := Split(s[i + 1..], sep);
      assert Split(s, sep) == [s[..i]] + rest;
      assert ([s[..i]] + rest)[1..] == rest;
      calc {
        Join(Split(s, sep), sep);
        s[..i] + [sep] + Join(rest, sep);
        s[..i] + [sep] + s[i + 1..];
        { assert s[i] == sep; }
        s;
      }
  }

  /** `r` is the text after the last `sep` of `s` (all of `s` when it has
      no `sep`). */
  predicate IsLastSegment(s: string, sep: char, r: string)
  {
    && sep !in r
    && EndsWith(s, r)
    && (|r| == |s| || s[|s| - |r| - 1] == sep)
  }

  /** The text after the last separator, computed from the right. */
  function LastSegment(s: string, sep: char): (r: string)
    ensures IsLastSegment(s, sep, r)
  {
    if |s| == 0 then ""
    else if s[|s| - 1] == sep then ""
    else
      var r := LastSegment(s[..|s| - 1], sep);
      assert s[..|s| - 1][|s| - 1 - |r|..] == r;
      r + [s[|s| - 1]]
  }

  /** The last segment is uniquely determined. */
  lemma LastSegmentUnique(s: string, sep: char, r1: string, r2: string)
    requires IsLastSegment(s, sep, r1) && IsLastSegment(s, sep, r2)
    ensures r1 == r2
  {
    if |r1| < |r2| {
      assert false;
    } else if |r2| < |r1| {
      assert false;
    }
  }

  /** Whatever precedes a separator does not affect the last segment. */
  lemma LastSegmentAfterSeparator(s: string, sep: char, i: nat)
    requires i < |s| && s[i] == sep
    ensures LastSegment(s, sep) == LastSegment(s[i + 1..], sep)
  {
    var t := LastSegment(s[i + 1..], sep);
    assert s[|s| - |t|..] == s[i + 1..][|s[i + 1..]| - |t|..];
    if |t| < |s[i + 1..]| {
      assert s[|s| - |t| - 1] == s[i + 1..][|s[i + 1..]| - |t| - 1];
    }
    assert IsLastSegment(s, sep, t);
    LastSegmentUnique(s, sep, LastSegment(s, sep), t);
  }

  /** Without a separator the last segment is the whole string. */
  lemma LastSegmentWithoutSeparator(s: string, sep: char)
    requires sep !in s
    ensures LastSegment(s, sep) == s
  {
    assert IsLastSegment(s, sep, s);
    LastSegmentUnique(s, sep, s, LastSegment(s, sep));
  }

  /** `s.split(sep).pop()` is the last segment. */
  lemma {:induction false} PopOfSplit(s: string, sep: char)
    ensures Split(s, sep)[|Split(s, sep)| - 1] == LastSegment(s, sep)
    decreases |s|
  {
    var parts := Split(s, sep);
    var idx := IndexOf(s, [sep], 0);
    if idx.None? {
      assert parts == [s];
      assert sep !in parts[0];
      LastSegmentWithoutSeparator(s, sep);
    } else {
      var i := idx.value;
      assert s[i..i + 1] == [sep];
      var rest := Split(s[i + 1..], sep);
      assert parts == [s[..i]] + rest;
      assert parts[|parts| - 1] == rest[|rest| - 1];
      PopOfSplit(s[i + 1..], sep);
      LastSegmentAfterSeparator(s, sep, i);
    }
  }
}
